=== FILE: README.md ===
# Request/response correlation over STOMP topics

This project models the request/response correlation layer of the iotapi client library. A caller
reads an attribute, writes an attribute or invokes an action on a device that it can only reach
through STOMP publish/subscribe topics. Each call has a fresh `requestId`. The caller subscribes to
the private result topic `/topic/result.<op>.<deviceId>.<requestId>` and then sends the request to
`/topic/operation.<op>.<deviceId>`. It waits on a one-shot latch. The device-side operation handler
answers exactly once, on the result topic it builds from the `requestId` it received.

Modules:

- `Wrappers`: `Option` (Java null) and `Result` (a value or a thrown exception).
- `Devices`: the device and type metadata, plus the four external codecs as function-valued fields
  of `Codec`. A codec may fail with an exception message, and that message may be null (`Msg`).
- `Envelopes`: `Request` (id and body), `Response`, the caller's transport `Effect`s, and the
  `SetRequest` constructor and setters.
- `Publishing`: `PublishHandler`, the pending call. It is a pure state machine over result slot,
  cancelled flag and latch count.
- `ClientSession`: `set`, `get` and `action` of `WebsocketClientSession`. Each returns an
  `Invocation`, which pairs what the call returns or throws with the effects it issued.
- `Subscribers`: `RequestSubscriber` and `GetSubscriber.getResponse`.
- `OperationHandlers`: `OperationHandler`, with `SubscribeGet` as its "get" instance.
- `Correlation`: lemmas that join the two sides. The headline lemma `ReplyReachesCaller` shows
  that the responder's topic equals the caller's result topic. Other lemmas cover injectivity of
  result topics and whole get exchanges.

External collaborators are parameters:

- The device lookup is a `Directory` map. A missing key stands for a null `getDevice`.
- The UUID generator becomes the `requestId` argument.
- The wait becomes the sequence of frames the handler has handled by the time `get` reads its
  result. `get` returns as soon as the first frame counts the latch down, so a frame arriving after
  that read is not in the sequence. An empty sequence means the deadline passed first: a timeout.
- The device's `getAttributeValue` becomes a function `DeviceGet`.
- The codecs are `Codec`.

The model follows the code in these behaviours, some of which a reader of the interfaces might not
expect:

- A second frame overwrites the result: the last writer wins, not the first. A later frame reaches
  the caller only if it is handled before `get` reads the result. `java.util.concurrent.Future`,
  which `PublishHandler` implements, describes a single result of one computation.
- `cancel` on a pending handler returns false. The `Future.cancel` documentation says it returns
  false only when the task could not be cancelled, and true otherwise (see "## Findings").
- The failures a caller of `set`, `action` and the corrected `get` sees are `NotFoundException` and
  `ValueException`. Timeouts (`TimeoutException`) and device errors (`StatusException`) are
  re-wrapped by the outer catch-all, so neither reaches the caller under its own type. Only the
  action-request encoding failure uses the prefix "request error". The `get` as written can also
  let a NullPointerException escape (see "## Findings").
- The responder answers with the message of whatever it caught, and that message may be null.

## Model

| member | source | states |
|---|---|---|
| Envelopes.NewSetRequest | src/main/java/com/leaniot/api/dto/SetRequest.java:14-18 | the id goes to the request base; the getters return the given attribute and value |
| Envelopes.SetAttribute | src/main/java/com/leaniot/api/dto/SetRequest.java:20-26 | after setAttribute, getAttribute returns the new name; the id and the value are unchanged |
| Envelopes.SetValue | src/main/java/com/leaniot/api/dto/SetRequest.java:28-34 | after setValue, getValue returns the new value; the id and the attribute are unchanged |
| Envelopes.SetRequestSettersIdempotent | src/main/java/com/leaniot/api/dto/SetRequest.java:20-34 | setting a field to what its getter returns leaves the request unchanged |
| Envelopes.SetRequestSettersCommute | src/main/java/com/leaniot/api/dto/SetRequest.java:14-34 | both setters together, in either order, build the request the constructor builds |
| Publishing.IsDone | src/main/java/com/leaniot/api/stomp/PublishHandler.java:97-100 | for a reachable handler, done exactly when a frame arrived or it was cancelled; a pending handler holds no result |
| Publishing.IsCancelled | src/main/java/com/leaniot/api/stomp/PublishHandler.java:92-95 | reports the cancel flag; a cancelled reachable handler is done |
| Publishing.New | src/main/java/com/leaniot/api/stomp/PublishHandler.java:27-35 | a new handler is not done, not cancelled and holds no result, and it satisfies the handler invariant |
| Publishing.AfterConnected | src/main/java/com/leaniot/api/stomp/PublishHandler.java:38-47 | subscribes to the result topic and then sends to the operation topic; the requestId at the end of the subscribed topic is the id of the sent request |
| Publishing.HandleFrame | src/main/java/com/leaniot/api/stomp/PublishHandler.java:57-64 | a frame makes the handler done and becomes its result; an earlier result is overwritten, and the cancelled flag is kept |
| Publishing.DeliverAll | src/main/java/com/leaniot/api/stomp/PublishHandler.java:57-64 | after any non-empty run of frames the handler is done and holds the last frame; with no frames nothing changes |
| Publishing.Cancel | src/main/java/com/leaniot/api/stomp/PublishHandler.java:67-75 | a done handler is left unchanged; a pending one becomes cancelled and done with its result, deviceId, topic and body kept; the return value is always false |
| Publishing.CancelIntended | src/main/java/com/leaniot/api/stomp/PublishHandler.java:67-75 | the same state change as cancel, returning true exactly when the handler was still pending |
| Publishing.CancelReportsFalseOnSuccess | src/main/java/com/leaniot/api/stomp/PublishHandler.java:70-74 | a pending handler is cancelled although cancel returns false |
| Publishing.Get | src/main/java/com/leaniot/api/stomp/PublishHandler.java:84-90 | returns the stored result exactly when a frame arrived or the call was cancelled; otherwise throws "timeout" |
| Publishing.GetNullOnlyAfterCancel | src/main/java/com/leaniot/api/stomp/PublishHandler.java:84-100 | get returns null exactly when the handler was cancelled before any reply |
| Publishing.LateReplyAfterCancel | src/main/java/com/leaniot/api/stomp/PublishHandler.java:57-75 | a reply after a cancel is still stored and returned, and the handler stays cancelled |
| ClientSession.Wrap | src/main/java/com/leaniot/api/client/WebsocketClientSession.java:181-184 | the rethrown ValueException is the prefix followed by the caught message, with null printed as "null" |
| ClientSession.Await | src/main/java/com/leaniot/api/client/WebsocketClientSession.java:187-197 | subscribe then send for the given requestId; without a frame the wait throws StatusException("timeout"), otherwise it returns the last frame |
| ClientSession.Settle | src/main/java/com/leaniot/api/client/WebsocketClientSession.java:345-354 | passes a response through only when one arrived and it reports success; a failed wait becomes prefix + its message, and a success=false reply becomes prefix + the device's error |
| ClientSession.Set | src/main/java/com/leaniot/api/client/WebsocketClientSession.java:169-197 | NotFound for an unknown device or attribute, with nothing published; an encoding failure is prefix + its message, with nothing published; the call publishes exactly when the value encodes, sending the SetRequest the constructor builds; success exactly when the last reply reports success; otherwise "set attribute [a] error: " + the device's error, or + "timeout" |
| ClientSession.DataTypeOf | src/main/java/com/leaniot/api/client/WebsocketClientSession.java:342-344 | the data type is present exactly when the attribute is declared with a data type, and it is that declared type |
| ClientSession.GetDeclared | src/main/java/com/leaniot/api/client/WebsocketClientSession.java:345-375 | once lookups pass, the call publishes the get handshake and succeeds exactly when the last reply succeeds and decodes with the attribute's data type; a success=false reply gives the get prefix + the device's error, a timeout the get prefix + "timeout", and a decode failure the get prefix + the decoder's message |
| ClientSession.GetAsWritten | src/main/java/com/leaniot/api/client/WebsocketClientSession.java:338-355 | an attribute missing from the definition throws an unchecked NullPointerException and publishes nothing |
| ClientSession.Get | src/main/java/com/leaniot/api/client/WebsocketClientSession.java:338-363 | NotFound for an unknown device or an undeclared or untyped attribute, with nothing published; it publishes exactly otherwise, and then succeeds exactly when the last reply succeeds and decodes, returning the decoded value |
| ClientSession.GetAsWrittenDiffersOnlyOnMissingAttribute | src/main/java/com/leaniot/api/client/WebsocketClientSession.java:342-344 | the as-written get and the corrected get differ exactly on an attribute absent from the definition |
| ClientSession.GetAsWrittenMissingAttributeCounterexample | src/main/java/com/leaniot/api/client/WebsocketClientSession.java:342-344 | for a device with no attributes, the as-written get throws NullPointerException where the corrected get throws NotFound("attribute: temperature") |
| ClientSession.ActionArgument | src/main/java/com/leaniot/api/client/WebsocketClientSession.java:422-432 | no payload when the action declares no request type; otherwise the value encoded with the request type, or that encoder's failure message |
| ClientSession.Action | src/main/java/com/leaniot/api/client/WebsocketClientSession.java:415-472 | NotFound for an unknown device or action; a request-encoding failure is "action [a] request error: " + its message, with nothing published; the call publishes exactly when lookups pass and the request encodes; then it succeeds exactly when the last reply succeeds and, if a response type is declared and wanted, decodes; a value is returned only in that case; failures read "action [a] response error: " + the device's error, "timeout", or the decoder's message |
| ClientSession.ActionWithoutTypesReturnsNull | src/main/java/com/leaniot/api/client/WebsocketClientSession.java:422-444 | an action with no request and no response type sends no payload and returns null on a successful reply |
| ClientSession.ActionDecodesDeclaredResponse | src/main/java/com/leaniot/api/client/WebsocketClientSession.java:439-460 | with a declared response type and a type token, a successful reply returns its value decoded with that type |
| ClientSession.CallerSeesOnlyNotFoundOrValueError | src/main/java/com/leaniot/api/client/WebsocketClientSession.java:176-184 | set, action and the corrected get throw only NotFoundException or ValueException, never StatusException or TimeoutException |
| Subscribers.NewRequestSubscriber | src/main/java/top/microiot/api/device/stomp/RequestSubscriber.java:20-22 | a new subscriber has no request, session or device |
| Subscribers.GetDevice | src/main/java/top/microiot/api/device/stomp/RequestSubscriber.java:29-31 | returns the device field |
| Subscribers.GetSessionManager | src/main/java/top/microiot/api/device/stomp/RequestSubscriber.java:42-44 | returns the session field |
| Subscribers.GetWebsocketDeviceSession | src/main/java/top/microiot/api/device/stomp/RequestSubscriber.java:23-25 | reports the same session as getSessionManager |
| Subscribers.SetDevice | src/main/java/top/microiot/api/device/stomp/RequestSubscriber.java:32-34 | getDevice returns the device just set; the request and session are unchanged |
| Subscribers.SetWebsocketDeviceSession | src/main/java/top/microiot/api/device/stomp/RequestSubscriber.java:26-28 | getSessionManager returns the session just set; the request and device are unchanged |
| Subscribers.OnEvent | src/main/java/top/microiot/api/device/stomp/RequestSubscriber.java:37-40 | the event becomes the current request; the device and session are unchanged |
| Subscribers.OnEventLastWins | src/main/java/top/microiot/api/device/stomp/RequestSubscriber.java:37-40 | a second event replaces the first |
| Subscribers.GetResponse | src/main/java/top/microiot/api/device/stomp/GetSubscriber.java:35-46 | success exactly when the handler returns, the attribute is defined and the value encodes; then no error and the encoded value; on failure no value and the caught message: the handler's, the NullPointerException's, or the codec's |
| Subscribers.GetResponseAsksOnlyForRequestedAttribute | src/main/java/top/microiot/api/device/stomp/GetSubscriber.java:37-39 | the response depends on the device handler only at the requested attribute |
| OperationHandlers.Operation | src/main/java/top/microiot/api/device/stomp/SubscribeGet.java:27-30 | SubscribeGet's operation is "get", which contains no dot |
| OperationHandlers.Accepts | src/main/java/top/microiot/api/device/stomp/SubscribeGet.java:22-25 | SubscribeGet accepts exactly the get requests |
| OperationHandlers.Topic | src/main/java/com/leaniot/api/stomp/OperationHandler.java:31-34 | the subscription topic is "operation." followed by the operation name |
| OperationHandlers.New | src/main/java/com/leaniot/api/stomp/OperationHandler.java:12-15 | the handler's deviceId is the session device's id, and the subscriber's device is that device |
| OperationHandlers.SubscribeGet | src/main/java/top/microiot/api/device/stomp/SubscribeGet.java:18-20 | only the OperationHandler constructor, with subscription topic "operation.get" |
| OperationHandlers.AfterConnected | src/main/java/com/leaniot/api/stomp/OperationHandler.java:18-21 | records the session and changes nothing else |
| OperationHandlers.HandleFrame | src/main/java/com/leaniot/api/stomp/OperationHandler.java:24-29 | the payload first becomes the subscriber's request; exactly one response, the one computed for that request, is sent on the recorded session to the result topic that carries the request's id |
| OperationHandlers.HandleFrames | src/main/java/com/leaniot/api/stomp/OperationHandler.java:24-29 | n frames give n sends in order; send i goes to the result topic of request i and carries the response to request i |
| OperationHandlers.SubscribeGetTopics | src/main/java/top/microiot/api/device/stomp/SubscribeGet.java:22-30 | SubscribeGet accepts get requests, listens on "operation.get" and answers under "/topic/result.get." |
| Correlation.ReplyReachesCaller | src/main/java/com/leaniot/api/stomp/OperationHandler.java:27 | when the caller's topic is the responder's operation and the device ids agree, the response lands on the result topic the caller subscribed to before sending |
| Correlation.ResultTopicDeterminesRequestId | src/main/java/com/leaniot/api/stomp/PublishHandler.java:42 | for one handler, equal result topics mean equal requestIds |
| Correlation.ResultTopicEndsInRequestId | src/main/java/com/leaniot/api/stomp/PublishHandler.java:40-42 | result topics ending in dot-free requestIds are equal only if the requestIds are, for any operations and device ids |
| Correlation.ResultTopicInjective | src/main/java/com/leaniot/api/stomp/PublishHandler.java:42 | with dot-free operations and device ids, a result topic determines operation, device and requestId |
| Correlation.ResponseTopicInjective | src/main/java/com/leaniot/api/stomp/OperationHandler.java:27 | with dot-free device ids, equal reply topics from two responders mean the same operation, device and requestId |
| Correlation.NoCrossWiring | src/main/java/com/leaniot/api/stomp/OperationHandler.java:27 | for dot-free (UUID) requestIds, the answer to one call never lands on the result topic of a call with a different requestId, whatever the operations and device ids |
| Correlation.EndToEndGet | src/main/java/com/leaniot/api/client/WebsocketClientSession.java:338-363 | a get answered by a SubscribeGet for the same device returns the device's value whenever the codecs round-trip it |
| Correlation.EndToEndGetDeviceFailure | src/main/java/top/microiot/api/device/stomp/GetSubscriber.java:43-45 | when the device handler throws, the responder still answers on the caller's topic, and the caller throws "get attribute [a] error: " plus the device's message |

## Findings

| source | as written | input that shows it | evidently intended | confidence | as-written member | corrected member |
|---|---|---|---|---|---|---|
| src/main/java/com/leaniot/api/stomp/PublishHandler.java:70-74 | `cancel` counts down and then returns `!isDone()`, which is always false | any pending handler | return true when a pending call was cancelled, as Future.cancel promises | high; not executed | Publishing.Cancel (see Publishing.CancelReportsFalseOnSuccess) | Publishing.CancelIntended |
| src/main/java/com/leaniot/api/client/WebsocketClientSession.java:342-344 | `getAttDefinition().get(attribute).getDataType()` dereferences a missing attribute outside the try, so a NullPointerException escapes | device "d1" whose type declares no attributes, attribute "temperature" | NotFound("attribute: temperature"), as `set` throws | medium; not executed | ClientSession.GetAsWritten (see ClientSession.GetAsWrittenMissingAttributeCounterexample) | ClientSession.Get |

## Left out

- The STOMP transport is not modelled: `connect`, `subscribe`, `send`, heartbeats and reconnection. The caller's subscribe and send are `Effect`s. A device-side send is a `Published` record.
- `synchronized` blocks and the concurrency of frame callbacks are not modelled. Frames are delivered one at a time, in the order given.
- The blocking `CountDownLatch.await` and the wall-clock timeout become the sequence of frames handled before `get` reads the result. `InterruptedException` and `ExecutionException` are not modelled.
- The untimed `get()` of PublishHandler is left out. It blocks until done and is not used by the dispatcher.
- `UUID.randomUUID` is not modelled: `requestId` is a parameter. Uniqueness is an assumption, and `NoCrossWiring` takes it as a precondition. RequestIds are also taken to be UUID-shaped, that is, free of dots, which is what `UUID.toString()` produces.
- HTTP device retrieval is not modelled. `HttpClientSession.getDevice` is the `Directory` map.
- The DataType and AttributeType codecs are abstract, fallible functions (`Codec`). `AttValueInfo` and `DataValue` are one `WireValue`. The Java target class (`Class<T>` or `ParameterizedTypeReference<T>`) becomes the flag `wantsValue` and the decoder.
- Beyond each action's declared data types, action metadata is not modelled. `getRequestAttributeType().getDataType()` is taken to be the declared request type.
- The typed façades (`getInt`, `getDouble`, `actionBool`, …), `subscribe` for alarms, `stop` and logging are not modelled. The façades only delegate, and the rest is plumbing.
- `SubscribeHandler`, `RequestGet`, `RequestSet` and `RequestAction` are not part of this model. `super.handleFrame` is taken to deliver the payload to `subscriber.onEvent`. The request handlers' topics are taken to be "get", "set" and "action". A request body stands for their `getRequest`.
- `OperationSubscriber`, the class OperationHandler holds and GetSubscriber extends, is not part of this model. The model takes it to be `RequestSubscriber`: the same `request` field, `setDevice`/`getDevice` and `onEvent`. So `OperationHandler.subscriber`, `Respond` and `GetResponse` take a `RequestSubscriber`.
- The no-argument `SetRequest()` constructor used for deserialisation is not modelled.
- The NullPointerException message is modelled as null. Helpful NPE messages of newer JVMs are not modelled.
- Subscribers.GetResponse: requires a device and a get request. The device is dereferenced outside the try (GetSubscriber.java:36) and is set by the OperationHandler constructor. The request is always present because OperationHandler.handleFrame delivers the frame to `onEvent` before it calls `getResponse` (OperationHandler.java:25-26), and SubscribeGet decodes every payload as a GetRequest.
- OperationHandlers.HandleFrame: requires a recorded session. A frame can only arrive on a connected subscription.
- Only the get responder is modelled. The set and action responders are not among the modelled sources.

=== FILE: client_session.dfy ===
/**
 * WebsocketClientSession's request dispatch: set, get and action. Each looks up
 * the device and the attribute or action, encodes the request, runs one
 * PublishHandler (subscribe, send, wait) and decodes the reply. Exceptions are
 * Faults; what the caller of set, action and the corrected get can observe is
 * a NotFound or a ValueError.
 *
 * The wait is given as the frames the handler has handled by the time get reads
 * its result (none if the deadline passed first), and the requestId as the
 * value the UUID generator produced.
 */
module ClientSession {
  import opened Wrappers
  import opened Devices
  import opened Envelopes
  import Publishing

  /** The topics of RequestSet, RequestGet and RequestAction. */
  const SetTopic: string := "set"
  const GetTopic: string := "get"
  const ActionTopic: string := "action"

  /** NotFoundException, StatusException, ValueException, and an unchecked NullPointerException. */
  datatype Fault = NotFound(text: string) | Status(status: Msg) | ValueError(text: string) | NullPointer

  /** What a call returns or throws, and what it asked of the transport. */
  datatype Invocation<T> = Invocation(result: Result<T, Fault>, effects: seq<Effect>)

  /** getMessage() of the exception a Fault stands for. */
  function Message(f: Fault): Msg {
    match f
    case NotFound(text) => Some(text)
    case Status(status) => status
    case ValueError(text) => Some(text)
    case NullPointer => NullPointerMessage
  }

  function SetPrefix(attribute: string): string {
    "set attribute [" + attribute + "] error: "
  }

  function GetPrefix(attribute: string): string {
    "get attribute [" + attribute + "] error: "
  }

  function ActionRequestPrefix(action: string): string {
    "action [" + action + "] request error: "
  }

  function ActionResponsePrefix(action: string): string {
    "action [" + action + "] response error: "
  }

  /** The ValueException the outer catch-all throws for a failure with message m. */
  function Wrap(prefix: string, m: Msg): (f: Fault)
    ensures f.ValueError? && StartsWith(f.text, prefix)
    ensures f.text[|prefix|..] == Render(m)
  {
    ValueError(prefix + Render(m))
  }

  /** The transport effects of one call on operation `op`: subscribe to its result topic, then send. */
  predicate Handshake(effects: seq<Effect>, op: string, deviceId: string, requestId: string, body: Body) {
    effects == [
      Subscribe("/topic/result." + op + "." + deviceId + "." + requestId),
      Send("/topic/operation." + op + "." + deviceId, Request(requestId, body))]
  }

  /** The last frame received, if any: the response the wait hands back. */
  function LastReply(frames: seq<Response>): Option<Response> {
    if |frames| == 0 then None else Some(frames[|frames| - 1])
  }

  /**
   * The private wait helpers: create the request handler, connect (subscribe and
   * send), wait; a TimeoutException becomes a StatusException with its message.
   */
  function Await(deviceId: string, topic: string, body: Body, requestId: string, frames: seq<Response>)
    : (a: Invocation<Option<Response>>)
    ensures Handshake(a.effects, topic, deviceId, requestId, body)
    ensures |frames| == 0 ==> a.result == Failure(Status(Some("timeout")))
    ensures |frames| > 0 ==> a.result == Success(LastReply(frames))
  {
    var h := Publishing.New(deviceId, topic, body);
    var effects := Publishing.AfterConnected(h, requestId);
    match Publishing.Get(Publishing.DeliverAll(h, frames))
    case Failure(m) => Invocation(Failure(Status(Some(m))), effects)
    case Success(r) => Invocation(Success(r), effects)
  }

  /**
   * The body of the outer try: a failed wait, a null response and a response
   * with success=false all end in the catch-all, which rethrows a ValueException
   * with the given prefix.
   */
  function Settle(prefix: string, awaited: Result<Option<Response>, Fault>): (r: Result<Response, Fault>)
    ensures r.Success? <==> awaited.Success? && awaited.value.Some? && awaited.value.value.success
    ensures r.Success? ==> r.value == awaited.value.value
    ensures r.Failure? ==> r.error.ValueError? && StartsWith(r.error.text, prefix)
    ensures awaited.Failure? ==> r == Failure(Wrap(prefix, Message(awaited.error)))
    ensures awaited.Success? && awaited.value.Some? && !awaited.value.value.success ==>
              r == Failure(Wrap(prefix, awaited.value.value.error))
  {
    match awaited
    case Failure(f) => Failure(Wrap(prefix, Message(f)))
    case Success(None) => Failure(Wrap(prefix, NullPointerMessage))
    case Success(Some(response)) =>
      if !response.success then Failure(Wrap(prefix, response.error))
      else Success(response)
  }

  /** set(deviceId, attribute, value). */
  function Set(dir: Directory, codec: Codec, deviceId: string, attribute: string, value: Value,
               requestId: string, frames: seq<Response>): (c: Invocation<()>)
    ensures deviceId !in dir ==> c == Invocation(Failure(NotFound("device: " + deviceId)), [])
    ensures deviceId in dir && attribute !in dir[deviceId].deviceType.attDefinition ==>
              c == Invocation(Failure(NotFound("attribute: " + attribute)), [])
    ensures c.result.Failure? ==>
              c.result.error.NotFound? || (c.result.error.ValueError? && StartsWith(c.result.error.text, SetPrefix(attribute)))
    ensures c.effects != [] <==>
              && deviceId in dir
              && attribute in dir[deviceId].deviceType.attDefinition
              && codec.attributeValue(dir[deviceId].deviceType.attDefinition[attribute], value).Success?
    ensures c.effects != [] ==>
              var w := codec.attributeValue(dir[deviceId].deviceType.attDefinition[attribute], value).value;
              Handshake(c.effects, SetTopic, deviceId, requestId, SetBody(attribute, w))
    ensures c.result.Success? <==> c.effects != [] && LastReply(frames).Some? && LastReply(frames).value.success
    ensures c.effects != [] ==>
              var w := codec.attributeValue(dir[deviceId].deviceType.attDefinition[attribute], value).value;
              c.effects[1].request == NewSetRequest(requestId, attribute, w)
    ensures deviceId in dir && attribute in dir[deviceId].deviceType.attDefinition
            && codec.attributeValue(dir[deviceId].deviceType.attDefinition[attribute], value).Failure? ==>
              c.result == Failure(ValueError(SetPrefix(attribute)
                + Render(codec.attributeValue(dir[deviceId].deviceType.attDefinition[attribute], value).error)))
    ensures c.effects != [] && |frames| == 0 ==> c.result == Failure(ValueError(SetPrefix(attribute) + "timeout"))
    ensures c.effects != [] && LastReply(frames).Some? && !LastReply(frames).value.success ==>
              c.result == Failure(ValueError(SetPrefix(attribute) + Render(LastReply(frames).value.error)))
  {
    if deviceId !in dir then Invocation(Failure(NotFound("device: " + deviceId)), [])
    else
      var defs := dir[deviceId].deviceType.attDefinition;
      if attribute !in defs then Invocation(Failure(NotFound("attribute: " + attribute)), [])
      else
        match codec.attributeValue(defs[attribute], value)
        case Failure(m) => Invocation(Failure(Wrap(SetPrefix(attribute), m)), [])
        case Success(w) =>
          var a := Await(deviceId, SetTopic, NewSetRequest(requestId, attribute, w).body, requestId, frames);
          match Settle(SetPrefix(attribute), a.result)
          case Failure(f) => Invocation(Failure(f), a.effects)
          case Success(_) => Invocation(Success(()), a.effects)
  }

  /** The data type get decodes with: present only if the attribute and its type are declared. */
  function DataTypeOf(device: Device, attribute: string): (t: Option<DataType>)
    ensures t.Some? <==>
              attribute in device.deviceType.attDefinition && device.deviceType.attDefinition[attribute].dataType.Some?
    ensures t.Some? ==> t == device.deviceType.attDefinition[attribute].dataType
  {
    if attribute in device.deviceType.attDefinition then device.deviceType.attDefinition[attribute].dataType
    else None
  }

  /** GetHandler.get after its lookups succeeded: wait, check success, decode with the attribute's type. */
  function GetDeclared(codec: Codec, deviceId: string, attribute: string, dataType: DataType,
                       requestId: string, frames: seq<Response>): (c: Invocation<Value>)
    ensures Handshake(c.effects, GetTopic, deviceId, requestId, GetBody(attribute))
    ensures c.result.Success? <==>
              && LastReply(frames).Some? && LastReply(frames).value.success
              && codec.typeData(dataType, LastReply(frames).value.value).Success?
    ensures c.result.Success? ==> c.result.value == codec.typeData(dataType, LastReply(frames).value.value).value
    ensures c.result.Failure? ==> c.result.error.ValueError? && StartsWith(c.result.error.text, GetPrefix(attribute))
    ensures |frames| == 0 ==> c.result == Failure(ValueError(GetPrefix(attribute) + "timeout"))
    ensures LastReply(frames).Some? && !LastReply(frames).value.success ==>
              c.result == Failure(ValueError(GetPrefix(attribute) + Render(LastReply(frames).value.error)))
    ensures LastReply(frames).Some? && LastReply(frames).value.success
            && codec.typeData(dataType, LastReply(frames).value.value).Failure? ==>
              c.result == Failure(Wrap(GetPrefix(attribute), codec.typeData(dataType, LastReply(frames).value.value).error))
  {
    var a := Await(deviceId, GetTopic, GetBody(attribute), requestId, frames);
    match Settle(GetPrefix(attribute), a.result)
    case Failure(f) => Invocation(Failure(f), a.effects)
    case Success(response) =>
      match codec.typeData(dataType, response.value)
      case Failure(m) => Invocation(Failure(Wrap(GetPrefix(attribute), m)), a.effects)
      case Success(v) => Invocation(Success(v), a.effects)
  }

  /**
   * get(deviceId, attribute, type) as written: an attribute missing from the
   * definition is dereferenced outside the try, so a NullPointerException
   * escapes; only a declared attribute without a data type is a NotFound.
   */
  function GetAsWritten(dir: Directory, codec: Codec, deviceId: string, attribute: string,
                        requestId: string, frames: seq<Response>): (c: Invocation<Value>)
    ensures deviceId in dir && attribute !in dir[deviceId].deviceType.attDefinition ==>
              c == Invocation(Failure(NullPointer), [])
  {
    if deviceId !in dir then Invocation(Failure(NotFound("device: " + deviceId)), [])
    else
      var defs := dir[deviceId].deviceType.attDefinition;
      if attribute !in defs then Invocation(Failure(NullPointer), [])
      else match defs[attribute].dataType
        case None => Invocation(Failure(NotFound("attribute: " + attribute)), [])
        case Some(dataType) => GetDeclared(codec, deviceId, attribute, dataType, requestId, frames)
  }

  /** get(deviceId, attribute, type) with the missing attribute reported as NotFound, like set does. */
  function Get(dir: Directory, codec: Codec, deviceId: string, attribute: string,
               requestId: string, frames: seq<Response>): (c: Invocation<Value>)
    ensures deviceId !in dir ==> c == Invocation(Failure(NotFound("device: " + deviceId)), [])
    ensures deviceId in dir && DataTypeOf(dir[deviceId], attribute).None? ==>
              c == Invocation(Failure(NotFound("attribute: " + attribute)), [])
    ensures c.result.Failure? ==>
              c.result.error.NotFound? || (c.result.error.ValueError? && StartsWith(c.result.error.text, GetPrefix(attribute)))
    ensures c.effects != [] <==> deviceId in dir && DataTypeOf(dir[deviceId], attribute).Some?
    ensures c.effects != [] ==> Handshake(c.effects, GetTopic, deviceId, requestId, GetBody(attribute))
    ensures c.result.Success? ==>
              && deviceId in dir && DataTypeOf(dir[deviceId], attribute).Some?
              && LastReply(frames).Some? && LastReply(frames).value.success
              && codec.typeData(DataTypeOf(dir[deviceId], attribute).value, LastReply(frames).value.value) == Success(c.result.value)
    ensures deviceId in dir && DataTypeOf(dir[deviceId], attribute).Some? ==>
              (c.result.Success? <==>
                 && LastReply(frames).Some? && LastReply(frames).value.success
                 && codec.typeData(DataTypeOf(dir[deviceId], attribute).value, LastReply(frames).value.value).Success?)
    ensures deviceId in dir && DataTypeOf(dir[deviceId], attribute).Some? ==>
              c == GetDeclared(codec, deviceId, attribute, DataTypeOf(dir[deviceId], attribute).value, requestId, frames)
  {
    if deviceId !in dir then Invocation(Failure(NotFound("device: " + deviceId)), [])
    else match DataTypeOf(dir[deviceId], attribute)
      case None => Invocation(Failure(NotFound("attribute: " + attribute)), [])
      case Some(dataType) => GetDeclared(codec, deviceId, attribute, dataType, requestId, frames)
  }

  /** The two get definitions differ only on an attribute missing from the definition. */
  lemma GetAsWrittenDiffersOnlyOnMissingAttribute(dir: Directory, codec: Codec, deviceId: string,
                                                  attribute: string, requestId: string, frames: seq<Response>)
    ensures GetAsWritten(dir, codec, deviceId, attribute, requestId, frames) != Get(dir, codec, deviceId, attribute, requestId, frames)
            <==> deviceId in dir && attribute !in dir[deviceId].deviceType.attDefinition
  {
  }

  /** A concrete device whose type declares no attributes: as written, get throws a NullPointerException. */
  lemma GetAsWrittenMissingAttributeCounterexample()
    ensures var dir := map["d1" := Device("d1", DeviceType(map[], map[]))];
            var codec := Codec((t, v) => Failure(None), (t, v) => Failure(None), (t, v) => Failure(None), (t, w) => Failure(None));
            && GetAsWritten(dir, codec, "d1", "temperature", "r1", []).result == Failure(NullPointer)
            && Get(dir, codec, "d1", "temperature", "r1", []).result == Failure(NotFound("attribute: temperature"))
  {
    var device := Device("d1", DeviceType(map[], map[]));
    var dir := map["d1" := device];
    assert "d1" in dir && dir["d1"] == device;
    assert "attribute: " + "temperature" == "attribute: temperature";
  }

  /**
   * The request payload of an action: nothing if the action declares no request
   * type, otherwise the value encoded with that type (which may throw).
   */
  function ActionArgument(codec: Codec, t: ActionType, request: Value): (r: Result<Option<WireValue>, Msg>)
    ensures t.request.None? ==> r == Success(None)
    ensures t.request.Some? ==>
              && (r.Success? <==> codec.typeValue(t.request.value, request).Success?)
              && (r.Success? ==> r.value == Some(codec.typeValue(t.request.value, request).value))
              && (r.Failure? ==> r.error == codec.typeValue(t.request.value, request).error)
  {
    match t.request
    case None => Success(None)
    case Some(requestType) =>
      match codec.typeValue(requestType, request)
      case Failure(m) => Failure(m)
      case Success(w) => Success(Some(w))
  }

  /** action(deviceId, action, request[, type]); `wantsValue` is whether a response type token was given. */
  function Action(dir: Directory, codec: Codec, deviceId: string, action: string, request: Value,
                  wantsValue: bool, requestId: string, frames: seq<Response>): (c: Invocation<Option<Value>>)
    ensures deviceId !in dir ==> c == Invocation(Failure(NotFound("device: " + deviceId)), [])
    ensures deviceId in dir && action !in dir[deviceId].deviceType.actionTypes ==>
              c == Invocation(Failure(NotFound("action: " + action)), [])
    ensures deviceId in dir && action in dir[deviceId].deviceType.actionTypes
            && ActionArgument(codec, dir[deviceId].deviceType.actionTypes[action], request).Failure? ==>
              c == Invocation(Failure(Wrap(ActionRequestPrefix(action),
                     ActionArgument(codec, dir[deviceId].deviceType.actionTypes[action], request).error)), [])
    ensures c.result.Failure? ==>
              || c.result.error.NotFound?
              || (c.result.error.ValueError? && StartsWith(c.result.error.text, ActionRequestPrefix(action)) && c.effects == [])
              || (c.result.error.ValueError? && StartsWith(c.result.error.text, ActionResponsePrefix(action)))
    ensures c.effects != [] <==>
              && deviceId in dir && action in dir[deviceId].deviceType.actionTypes
              && ActionArgument(codec, dir[deviceId].deviceType.actionTypes[action], request).Success?
    ensures c.effects != [] ==>
              Handshake(c.effects, ActionTopic, deviceId, requestId,
                        ActionBody(action, ActionArgument(codec, dir[deviceId].deviceType.actionTypes[action], request).value))
    ensures c.effects != [] ==>
              var t := dir[deviceId].deviceType.actionTypes[action];
              (c.result.Success? <==>
                 && LastReply(frames).Some? && LastReply(frames).value.success
                 && (t.response.Some? && wantsValue ==> codec.typeData(t.response.value, LastReply(frames).value.value).Success?))
    ensures c.effects != [] && |frames| == 0 ==>
              c.result == Failure(ValueError(ActionResponsePrefix(action) + "timeout"))
    ensures c.effects != [] && LastReply(frames).Some? && !LastReply(frames).value.success ==>
              c.result == Failure(ValueError(ActionResponsePrefix(action) + Render(LastReply(frames).value.error)))
    ensures c.effects != [] && LastReply(frames).Some? && LastReply(frames).value.success ==>
              var t := dir[deviceId].deviceType.actionTypes[action];
              t.response.Some? && wantsValue && codec.typeData(t.response.value, LastReply(frames).value.value).Failure? ==>
                c.result == Failure(Wrap(ActionResponsePrefix(action),
                                         codec.typeData(t.response.value, LastReply(frames).value.value).error))
    ensures c.result.Success? ==>
              && c.effects != [] && LastReply(frames).Some? && LastReply(frames).value.success
              && var t := dir[deviceId].deviceType.actionTypes[action];
              && (c.result.value.Some? <==> t.response.Some? && wantsValue)
              && (c.result.value.Some? ==> codec.typeData(t.response.value, LastReply(frames).value.value) == Success(c.result.value.value))
  {
    if deviceId !in dir then Invocation(Failure(NotFound("device: " + deviceId)), [])
    else
      var actions := dir[deviceId].deviceType.actionTypes;
      if action !in actions then Invocation(Failure(NotFound("action: " + action)), [])
      else
        var t := actions[action];
        match ActionArgument(codec, t, request)
        case Failure(m) => Invocation(Failure(Wrap(ActionRequestPrefix(action), m)), [])
        case Success(argument) =>
          var a := Await(deviceId, ActionTopic, ActionBody(action, argument), requestId, frames);
          match Settle(ActionResponsePrefix(action), a.result)
          case Failure(f) => Invocation(Failure(f), a.effects)
          case Success(response) =>
            if t.response.None? || !wantsValue then Invocation(Success(None), a.effects)
            else match codec.typeData(t.response.value, response.value)
              case Failure(m) => Invocation(Failure(Wrap(ActionResponsePrefix(action), m)), a.effects)
              case Success(v) => Invocation(Success(Some(v)), a.effects)
  }

  /**
   * An action that declares neither a request nor a response type (a "reboot")
   * sends no payload, and a successful reply makes it return null, whatever
   * type token was given.
   */
  lemma ActionWithoutTypesReturnsNull(dir: Directory, codec: Codec, deviceId: string, action: string, request: Value,
                                      wantsValue: bool, requestId: string, reply: Response)
    requires deviceId in dir && action in dir[deviceId].deviceType.actionTypes
    requires dir[deviceId].deviceType.actionTypes[action] == ActionType(None, None)
    requires reply.success
    ensures var c := Action(dir, codec, deviceId, action, request, wantsValue, requestId, [reply]);
            && c.result == Success(None)
            && c.effects[1] == Send("/topic/operation.action." + deviceId, Request(requestId, ActionBody(action, None)))
  {
  }

  /**
   * With a declared response type and a type token, the value returned is the
   * reply's value decoded with that type: the caller's half of the round trip.
   */
  lemma ActionDecodesDeclaredResponse(dir: Directory, codec: Codec, deviceId: string, action: string, request: Value,
                                      requestId: string, reply: Response, v: Value)
    requires deviceId in dir && action in dir[deviceId].deviceType.actionTypes
    requires ActionArgument(codec, dir[deviceId].deviceType.actionTypes[action], request).Success?
    requires dir[deviceId].deviceType.actionTypes[action].response.Some?
    requires reply.success
    requires codec.typeData(dir[deviceId].deviceType.actionTypes[action].response.value, reply.value) == Success(v)
    ensures Action(dir, codec, deviceId, action, request, true, requestId, [reply]).result == Success(Some(v))
  {
  }

  /** A caller never sees a StatusException or a NullPointerException from set, the corrected get or action. */
  lemma CallerSeesOnlyNotFoundOrValueError(dir: Directory, codec: Codec, deviceId: string, name: string, value: Value,
                                           wantsValue: bool, requestId: string, frames: seq<Response>)
    ensures var r := Set(dir, codec, deviceId, name, value, requestId, frames).result;
            r.Failure? ==> r.error.NotFound? || r.error.ValueError?
    ensures var r := Get(dir, codec, deviceId, name, requestId, frames).result;
            r.Failure? ==> r.error.NotFound? || r.error.ValueError?
    ensures var r := Action(dir, codec, deviceId, name, value, wantsValue, requestId, frames).result;
            r.Failure? ==> r.error.NotFound? || r.error.ValueError?
  {
  }
}

=== FILE: correlation.dfy ===
/**
 * How the two sides meet: the caller's PublishHandler subscribes to a result
 * topic built from its fresh requestId, and the device's OperationHandler
 * answers on a topic built from the requestId it received. These lemmas show
 * that the reply lands on the caller's subscription, on nobody else's, and that
 * a full get exchange returns the device's value.
 */
module Correlation {
  import opened Wrappers
  import opened Devices
  import opened Envelopes
  import opened Subscribers
  import Publishing
  import OperationHandlers
  import ClientSession

  /**
   * The headline property: for the request a caller sends, a responder for the
   * same operation and device publishes its one response to exactly the topic
   * the caller subscribed to, and the caller subscribed before it sent.
   */
  lemma ReplyReachesCaller(caller: Publishing.PublishHandler, requestId: string,
                           responder: OperationHandlers.OperationHandler,
                           getAttributeValue: DeviceGet, codec: Codec)
    requires caller.topic == OperationHandlers.Operation(responder.kind)
    requires caller.deviceId == responder.deviceId
    requires OperationHandlers.Ready(responder)
    requires OperationHandlers.Accepts(responder.kind, Request(requestId, caller.body))
    ensures var effects := Publishing.AfterConnected(caller, requestId);
            && effects[0] == Subscribe(Publishing.ResultTopic(caller, requestId))
            && effects[1].Send?
            && OperationHandlers.HandleFrame(responder, effects[1].request, getAttributeValue, codec).1.topic
               == Publishing.ResultTopic(caller, requestId)
  {
  }

  /** Removing a common prefix. */
  lemma PrefixCancel(p: string, x: string, y: string)
    requires p + x == p + y
    ensures x == y
  {
    assert x == (p + x)[|p|..];
    assert y == (p + y)[|p|..];
  }

  /** The number of characters before the first dot (all of them if there is none). */
  function LeadingLength(s: string): (n: nat)
    ensures n <= |s|
  {
    if |s| == 0 || s[0] == '.' then 0 else 1 + LeadingLength(s[1..])
  }

  /** In `a + "." + x` with a dot-free `a`, the first dot sits right after `a`. */
  lemma {:induction false} LeadingLengthOfSplit(a: string, x: string)
    requires '.' !in a
    ensures LeadingLength(a + "." + x) == |a|
  {
    var s := a + "." + x;
    if |a| == 0 {
      assert s[0] == '.';
    } else {
      assert s[0] == a[0];
      assert s[1..] == a[1..] + "." + x;
      assert '.' !in a[1..] by {
        forall k | 0 <= k < |a[1..]|
          ensures a[1..][k] != '.'
        {
          assert a[1..][k] == a[k + 1];
        }
      }
      LeadingLengthOfSplit(a[1..], x);
    }
  }

  /** Splitting at the first dot: a dot-free head is determined by the string. */
  lemma SplitAtDot(a: string, x: string, b: string, y: string)
    requires '.' !in a && '.' !in b
    requires a + "." + x == b + "." + y
    ensures a == b && x == y
  {
    var s := a + "." + x;
    LeadingLengthOfSplit(a, x);
    LeadingLengthOfSplit(b, y);
    assert |a| == |b|;
    assert a == s[..|a|] == b;
    assert x == s[|a| + 1..] == y;
  }

  /** The number of characters after the last dot (all of them if there is none). */
  function TrailingLength(s: string): (n: nat)
    ensures n <= |s|
  {
    if |s| == 0 || s[|s| - 1] == '.' then 0 else 1 + TrailingLength(s[..|s| - 1])
  }

  /** In `p + "." + x` with a dot-free `x`, the last dot sits right before `x`. */
  lemma {:induction false} TrailingLengthOfSplit(p: string, x: string)
    requires '.' !in x
    ensures TrailingLength(p + "." + x) == |x|
  {
    var s := p + "." + x;
    if |x| == 0 {
      assert s[|s| - 1] == '.';
    } else {
      var x' := x[..|x| - 1];
      assert s[|s| - 1] == x[|x| - 1];
      assert s[..|s| - 1] == p + "." + x';
      assert '.' !in x' by {
        forall k | 0 <= k < |x'|
          ensures x'[k] != '.'
        {
          assert x'[k] == x[k];
        }
      }
      TrailingLengthOfSplit(p, x');
    }
  }

  /** A dot-free last segment is determined by the string, whatever precedes its dot. */
  lemma LastSegmentDetermined(p: string, x: string, q: string, y: string)
    requires '.' !in x && '.' !in y
    requires p + "." + x == q + "." + y
    ensures x == y
  {
    var s := p + "." + x;
    TrailingLengthOfSplit(p, x);
    TrailingLengthOfSplit(q, y);
    assert x == s[|s| - |x|..] == y;
  }

  /**
   * Result topics that end in dot-free requestIds (UUID strings) are equal only
   * if the requestIds are, for any operations and device ids.
   */
  lemma ResultTopicEndsInRequestId(h1: Publishing.PublishHandler, id1: string,
                                    h2: Publishing.PublishHandler, id2: string)
    requires '.' !in id1 && '.' !in id2
    requires Publishing.ResultTopic(h1, id1) == Publishing.ResultTopic(h2, id2)
    ensures id1 == id2
  {
    var p1 := "/topic/result." + h1.topic + "." + h1.deviceId;
    var p2 := "/topic/result." + h2.topic + "." + h2.deviceId;
    assert Publishing.ResultTopic(h1, id1) == p1 + "." + id1;
    assert Publishing.ResultTopic(h2, id2) == p2 + "." + id2;
    LastSegmentDetermined(p1, id1, p2, id2);
  }

  /** One caller's result topics are distinct for distinct requestIds. */
  lemma ResultTopicDeterminesRequestId(h: Publishing.PublishHandler, id1: string, id2: string)
    requires Publishing.ResultTopic(h, id1) == Publishing.ResultTopic(h, id2)
    ensures id1 == id2
  {
    PrefixCancel(Publishing.ResultPrefix(h), id1, id2);
  }

  /**
   * With dot-free operation names and device ids, a result topic names exactly
   * one (operation, device, requestId): a reply cannot reach another call.
   */
  lemma ResultTopicInjective(h1: Publishing.PublishHandler, id1: string,
                              h2: Publishing.PublishHandler, id2: string)
    requires '.' !in h1.topic && '.' !in h1.deviceId
    requires '.' !in h2.topic && '.' !in h2.deviceId
    requires Publishing.ResultTopic(h1, id1) == Publishing.ResultTopic(h2, id2)
    ensures h1.topic == h2.topic && h1.deviceId == h2.deviceId && id1 == id2
  {
    var p := "/topic/result.";
    var rest1 := h1.topic + "." + (h1.deviceId + "." + id1);
    var rest2 := h2.topic + "." + (h2.deviceId + "." + id2);
    assert Publishing.ResultTopic(h1, id1) == p + rest1;
    assert Publishing.ResultTopic(h2, id2) == p + rest2;
    PrefixCancel(p, rest1, rest2);
    SplitAtDot(h1.topic, h1.deviceId + "." + id1, h2.topic, h2.deviceId + "." + id2);
    SplitAtDot(h1.deviceId, id1, h2.deviceId, id2);
  }

  /**
   * On the responder's side, operation names are dot-free, so with dot-free
   * device ids the topic of a reply names exactly one (device, requestId).
   */
  lemma ResponseTopicInjective(r1: OperationHandlers.OperationHandler, p1: Request,
                               r2: OperationHandlers.OperationHandler, p2: Request,
                               getAttributeValue: DeviceGet, codec: Codec)
    requires OperationHandlers.Ready(r1) && OperationHandlers.Accepts(r1.kind, p1)
    requires OperationHandlers.Ready(r2) && OperationHandlers.Accepts(r2.kind, p2)
    requires '.' !in r1.deviceId && '.' !in r2.deviceId
    requires OperationHandlers.HandleFrame(r1, p1, getAttributeValue, codec).1.topic
             == OperationHandlers.HandleFrame(r2, p2, getAttributeValue, codec).1.topic
    ensures OperationHandlers.Operation(r1.kind) == OperationHandlers.Operation(r2.kind)
    ensures r1.deviceId == r2.deviceId && p1.requestId == p2.requestId
  {
    var p := "/topic/result.";
    var op1, op2 := OperationHandlers.Operation(r1.kind), OperationHandlers.Operation(r2.kind);
    var rest1 := op1 + "." + (r1.deviceId + "." + p1.requestId);
    var rest2 := op2 + "." + (r2.deviceId + "." + p2.requestId);
    assert OperationHandlers.HandleFrame(r1, p1, getAttributeValue, codec).1.topic == p + rest1;
    assert OperationHandlers.HandleFrame(r2, p2, getAttributeValue, codec).1.topic == p + rest2;
    PrefixCancel(p, rest1, rest2);
    SplitAtDot(op1, r1.deviceId + "." + p1.requestId, op2, r2.deviceId + "." + p2.requestId);
    SplitAtDot(r1.deviceId, p1.requestId, r2.deviceId, p2.requestId);
  }

  /**
   * No cross-wiring: the responder's answer to one caller's request lands on
   * another caller's result topic only if both calls are the same call.
   */
  lemma NoCrossWiring(caller: Publishing.PublishHandler, requestId: string,
                      other: Publishing.PublishHandler, otherId: string,
                      responder: OperationHandlers.OperationHandler,
                      getAttributeValue: DeviceGet, codec: Codec)
    requires caller.topic == OperationHandlers.Operation(responder.kind)
    requires caller.deviceId == responder.deviceId
    requires OperationHandlers.Ready(responder)
    requires OperationHandlers.Accepts(responder.kind, Request(requestId, caller.body))
    requires '.' !in requestId && '.' !in otherId
    requires requestId != otherId
    ensures var sent := Publishing.AfterConnected(caller, requestId)[1].request;
            OperationHandlers.HandleFrame(responder, sent, getAttributeValue, codec).1.topic
              != Publishing.AfterConnected(other, otherId)[0].topic
  {
    var sent := Publishing.AfterConnected(caller, requestId)[1].request;
    var topic := OperationHandlers.HandleFrame(responder, sent, getAttributeValue, codec).1.topic;
    ReplyReachesCaller(caller, requestId, responder, getAttributeValue, codec);
    if topic == Publishing.AfterConnected(other, otherId)[0].topic {
      ResultTopicEndsInRequestId(caller, requestId, other, otherId);
    }
  }

  /** The device's encoding of `value` for attribute type `t` decodes back to `value` on the caller. */
  predicate RoundTrips(codec: Codec, t: AttributeType, value: Value) {
    && t.dataType.Some?
    && codec.attributeData(t, value).Success?
    && codec.typeData(t.dataType.value, Some(codec.attributeData(t, value).value)) == Success(value)
  }

  /**
   * A whole get: the caller sends its request, a connected SubscribeGet for the
   * same device answers it on the caller's result topic, and the caller, given
   * that reply, returns the device's value.
   */
  lemma EndToEndGet(dir: Directory, codec: Codec, ws: DeviceSession, subscriber: RequestSubscriber,
                    session: OperationHandlers.StompSession, attribute: string, requestId: string,
                    getAttributeValue: DeviceGet, value: Value)
    requires ws.device.id in dir && dir[ws.device.id] == ws.device
    requires attribute in ws.device.deviceType.attDefinition
    requires getAttributeValue(attribute) == Success(value)
    requires RoundTrips(codec, ws.device.deviceType.attDefinition[attribute], value)
    ensures var call := ClientSession.Get(dir, codec, ws.device.id, attribute, requestId, []);
            var responder := OperationHandlers.AfterConnected(OperationHandlers.SubscribeGet(ws, subscriber), session);
            && |call.effects| == 2 && call.effects[1].Send?
            && var reply := OperationHandlers.HandleFrame(responder, call.effects[1].request, getAttributeValue, codec).1;
            && reply.topic == call.effects[0].topic
            && ClientSession.Get(dir, codec, ws.device.id, attribute, requestId, [reply.response]).result == Success(value)
  {
  }

  /**
   * A get the device fails: the responder still answers, on the caller's topic,
   * and the caller throws a ValueException carrying the device's message.
   */
  lemma EndToEndGetDeviceFailure(dir: Directory, codec: Codec, ws: DeviceSession, subscriber: RequestSubscriber,
                                 session: OperationHandlers.StompSession, attribute: string, requestId: string,
                                 getAttributeValue: DeviceGet, message: Msg)
    requires ws.device.id in dir && dir[ws.device.id] == ws.device
    requires ClientSession.DataTypeOf(ws.device, attribute).Some?
    requires getAttributeValue(attribute) == Failure(message)
    ensures var call := ClientSession.Get(dir, codec, ws.device.id, attribute, requestId, []);
            var responder := OperationHandlers.AfterConnected(OperationHandlers.SubscribeGet(ws, subscriber), session);
            && |call.effects| == 2 && call.effects[1].Send?
            && var reply := OperationHandlers.HandleFrame(responder, call.effects[1].request, getAttributeValue, codec).1;
            && reply.topic == call.effects[0].topic
            && !reply.response.success
            && ClientSession.Get(dir, codec, ws.device.id, attribute, requestId, [reply.response]).result
               == Failure(ClientSession.ValueError(ClientSession.GetPrefix(attribute) + Render(message)))
  {
  }
}

=== FILE: devices.dfy ===
/**
 * Device metadata as the correlation layer consumes it: a device, its type, the
 * attribute and action definitions of that type, and the value codecs selected
 * by a DataType. The codecs are external; they appear here as function-valued
 * parameters that may fail with the message of the exception they throw.
 */
module Devices {
  import opened Wrappers

  /** The message of a Java exception; `getMessage()` may return null. */
  type Msg = Option<string>

  /** The message a NullPointerException carries (null without helpful NPE messages). */
  const NullPointerMessage: Msg := None

  /** Java string concatenation of a possibly-null message: null prints as "null". */
  function Render(m: Msg): (s: string)
    ensures m.Some? ==> s == m.value
    ensures m.None? ==> s == "null"
  {
    match m
    case None => "null"
    case Some(text) => text
  }

  /** The closed set of value kinds a device type may declare. */
  datatype DataType = IntType | DoubleType | StringType | DateType | EnumType | LocationType | BoolType

  /** A raw (caller- or device-side) value; opaque to the correlation layer. */
  datatype Value = Null | Raw(repr: string)

  /** A value in its wire form (AttValueInfo on requests, DataValue on responses). */
  datatype WireValue = WireValue(encoded: string)

  /** An attribute definition; its data type may be missing. */
  datatype AttributeType = AttributeType(dataType: Option<DataType>)

  /** An action definition: an optional request type and an optional response type. */
  datatype ActionType = ActionType(request: Option<DataType>, response: Option<DataType>)

  datatype DeviceType = DeviceType(attDefinition: map<string, AttributeType>, actionTypes: map<string, ActionType>)

  datatype Device = Device(id: string, deviceType: DeviceType)

  /** The device's own websocket session; it knows which device it speaks for. */
  datatype DeviceSession = DeviceSession(device: Device)

  /** The device lookup of the HTTP session: a missing key is a null `getDevice` result. */
  type Directory = map<string, Device>

  /**
   * The external codecs. `attributeValue` and `attributeData` are AttributeType's
   * getAttValue and getAttData; `typeValue` and `typeData` are DataType's
   * getAttValue and getData. Each may throw, which is a Failure with its message.
   */
  datatype Codec = Codec(
    attributeValue: (AttributeType, Value) -> Result<WireValue, Msg>,
    attributeData: (AttributeType, Value) -> Result<WireValue, Msg>,
    typeValue: (DataType, Value) -> Result<WireValue, Msg>,
    typeData: (DataType, Option<WireValue>) -> Result<Value, Msg>)
}

=== FILE: envelopes.dfy ===
/**
 * The wire envelopes shared by the caller and the device: the request with its
 * caller-generated requestId, the response, and the transport effects a caller
 * issues (subscribe, send).
 */
module Envelopes {
  import opened Wrappers
  import opened Devices

  /** The operation-specific part of a request (GetRequest, SetRequest, ActionRequest). */
  datatype Body =
    | GetBody(attribute: string)
    | SetBody(attribute: string, value: WireValue)
    | ActionBody(action: string, argument: Option<WireValue>)

  datatype Request = Request(requestId: string, body: Body)

  /** A device's answer: `error` is meaningful on failure, `value` on success. */
  datatype Response = Response(success: bool, error: Msg, value: Option<WireValue>)

  /** What a caller asks of the STOMP session, in order. */
  datatype Effect = Subscribe(topic: string) | Send(topic: string, request: Request)

  /** Whether `prefix` is a prefix of `s` (topics, exception messages). */
  predicate StartsWith(s: string, prefix: string) {
    |prefix| <= |s| && s[..|prefix|] == prefix
  }

  /** SetRequest(requestId, attribute, value): the id goes to the Request base, the rest to the set body. */
  function NewSetRequest(requestId: string, attribute: string, value: WireValue): (r: Request)
    ensures r.requestId == requestId
    ensures r.body.SetBody? && r.body.attribute == attribute && r.body.value == value
  {
    Request(requestId, SetBody(attribute, value))
  }

  /** SetRequest.setAttribute: replaces the attribute, keeps the id and the value. */
  function SetAttribute(r: Request, attribute: string): (r': Request)
    requires r.body.SetBody?
    ensures r'.body.SetBody? && r'.body.attribute == attribute
    ensures r'.body.value == r.body.value && r'.requestId == r.requestId
  {
    r.(body := r.body.(attribute := attribute))
  }

  /** SetRequest.setValue: replaces the value, keeps the id and the attribute. */
  function SetValue(r: Request, value: WireValue): (r': Request)
    requires r.body.SetBody?
    ensures r'.body.SetBody? && r'.body.value == value
    ensures r'.body.attribute == r.body.attribute && r'.requestId == r.requestId
  {
    r.(body := r.body.(value := value))
  }

  /** Setting a field to what the getter already returns changes nothing. */
  lemma SetRequestSettersIdempotent(r: Request)
    requires r.body.SetBody?
    ensures SetAttribute(r, r.body.attribute) == r
    ensures SetValue(r, r.body.value) == r
  {
  }

  /** The two setters touch disjoint fields, so their order does not matter. */
  lemma SetRequestSettersCommute(r: Request, attribute: string, value: WireValue)
    requires r.body.SetBody?
    ensures SetValue(SetAttribute(r, attribute), value) == SetAttribute(SetValue(r, value), attribute)
    ensures SetValue(SetAttribute(r, attribute), value) == NewSetRequest(r.requestId, attribute, value)
  {
  }
}

=== FILE: operation_handler.dfy ===
/**
 * The device-side responder: an OperationHandler subscribed to
 * "operation.<op>" receives a request, hands it to its subscriber, asks the
 * subscriber for the response and sends exactly that response to the result
 * topic named by the request's own requestId. SubscribeGet is the handler for
 * the "get" operation.
 */
module OperationHandlers {
  import opened Wrappers
  import opened Devices
  import opened Envelopes
  import opened Subscribers

  /** The concrete handler classes; only SubscribeGet is part of this model. */
  datatype OperationKind = GetOperation

  /** getOperation: a constant, dot-free name per handler class. */
  function Operation(kind: OperationKind): (op: string)
    ensures kind == GetOperation ==> op == "get"
    ensures '.' !in op
  {
    match kind
    case GetOperation => "get"
  }

  /** getPayloadType: the request class inbound payloads are decoded as. */
  function Accepts(kind: OperationKind, payload: Request): (accepted: bool)
    ensures kind == GetOperation ==> (accepted <==> payload.body.GetBody?)
  {
    match kind
    case GetOperation => payload.body.GetBody?
  }

  /** getTopic: the operation name is what follows "operation.". */
  function Topic(kind: OperationKind): (topic: string)
    ensures StartsWith(topic, "operation.") && topic[|"operation."|..] == Operation(kind)
  {
    "operation." + Operation(kind)
  }

  /** The STOMP session handed to afterConnected. */
  datatype StompSession = StompSession(id: nat)

  /** The handler's subscriber is an OperationSubscriber, taken to be a RequestSubscriber. */
  datatype OperationHandler = OperationHandler(
    kind: OperationKind,
    deviceId: string,
    session: Option<StompSession>,
    subscriber: RequestSubscriber)

  /** One `session.send(topic, response)`. */
  datatype Published = Published(session: StompSession, topic: string, response: Response)

  /**
   * The constructor: the handler speaks for the session's device, and the
   * subscriber is told that same device.
   */
  function New(kind: OperationKind, ws: DeviceSession, subscriber: RequestSubscriber): (h: OperationHandler)
    ensures h.kind == kind && h.session.None?
    ensures h.deviceId == ws.device.id
    ensures GetDevice(h.subscriber) == Some(ws.device)
    ensures h.subscriber.request == subscriber.request
    ensures GetSessionManager(h.subscriber) == GetSessionManager(subscriber)
  {
    OperationHandler(kind, ws.device.id, None, SetDevice(subscriber, ws.device))
  }

  /** SubscribeGet(wsSession, subscriber): nothing beyond the OperationHandler constructor. */
  function SubscribeGet(ws: DeviceSession, subscriber: RequestSubscriber): (h: OperationHandler)
    ensures h.kind == GetOperation && h.session.None? && h.deviceId == ws.device.id
    ensures GetDevice(h.subscriber) == Some(ws.device) && h.subscriber.request == subscriber.request
    ensures Topic(h.kind) == "operation.get"
  {
    New(GetOperation, ws, subscriber)
  }

  /** afterConnected: remember the session the responses go out on. */
  function AfterConnected(h: OperationHandler, session: StompSession): (h': OperationHandler)
    ensures h'.session == Some(session)
    ensures h'.kind == h.kind && h'.deviceId == h.deviceId && h'.subscriber == h.subscriber
  {
    h.(session := Some(session))
  }

  /** Connected, and its subscriber knows the device: ready to answer frames. */
  predicate Ready(h: OperationHandler) {
    h.session.Some? && h.subscriber.device.Some?
  }

  /** subscriber.getResponse(), dispatched on the concrete subscriber class. */
  function Respond(kind: OperationKind, subscriber: RequestSubscriber, getAttributeValue: DeviceGet, codec: Codec)
    : Response
    requires subscriber.device.Some? && subscriber.request.Some? && Accepts(kind, subscriber.request.value)
  {
    match kind
    case GetOperation => GetResponse(subscriber, getAttributeValue, codec)
  }

  /**
   * handleFrame: deliver the payload to the subscriber, compute its response and
   * send it, once, to "/topic/result.<op>.<deviceId>.<requestId>".
   */
  function HandleFrame(h: OperationHandler, payload: Request, getAttributeValue: DeviceGet, codec: Codec)
    : (out: (OperationHandler, Published))
    requires Ready(h) && Accepts(h.kind, payload)
    ensures Ready(out.0)
    ensures out.0.kind == h.kind && out.0.deviceId == h.deviceId && out.0.session == h.session
    ensures out.0.subscriber.request == Some(payload)
    ensures GetDevice(out.0.subscriber) == GetDevice(h.subscriber)
    ensures GetSessionManager(out.0.subscriber) == GetSessionManager(h.subscriber)
    ensures out.1.session == h.session.value
    ensures out.1.topic == "/topic/result." + Operation(h.kind) + "." + h.deviceId + "." + payload.requestId
    ensures out.1.response == Respond(h.kind, OnEvent(h.subscriber, payload), getAttributeValue, codec)
  {
    var h' := h.(subscriber := OnEvent(h.subscriber, payload));
    var response := Respond(h'.kind, h'.subscriber, getAttributeValue, codec);
    var topic := "/topic/result." + Operation(h'.kind) + "." + h'.deviceId + "." + h'.subscriber.request.value.requestId;
    (h', Published(h'.session.value, topic, response))
  }

  /**
   * A run of inbound frames: exactly one send per frame, in order, each to the
   * result topic of its own request and carrying the response to that request.
   */
  function HandleFrames(h: OperationHandler, payloads: seq<Request>, getAttributeValue: DeviceGet, codec: Codec)
    : (out: (OperationHandler, seq<Published>))
    requires Ready(h)
    requires forall i :: 0 <= i < |payloads| ==> Accepts(h.kind, payloads[i])
    ensures Ready(out.0)
    ensures out.0.kind == h.kind && out.0.deviceId == h.deviceId && out.0.session == h.session
    ensures GetDevice(out.0.subscriber) == GetDevice(h.subscriber)
    ensures |out.1| == |payloads|
    ensures |payloads| > 0 ==> out.0.subscriber.request == Some(payloads[|payloads| - 1])
    ensures forall i :: 0 <= i < |payloads| ==>
              && out.1[i].session == h.session.value
              && out.1[i].topic == "/topic/result." + Operation(h.kind) + "." + h.deviceId + "." + payloads[i].requestId
              && out.1[i].response == Respond(h.kind, OnEvent(h.subscriber, payloads[i]), getAttributeValue, codec)
    decreases |payloads|
  {
    if |payloads| == 0 then (h, [])
    else
      var first := HandleFrame(h, payloads[0], getAttributeValue, codec);
      var rest := HandleFrames(first.0, payloads[1..], getAttributeValue, codec);
      (rest.0, [first.1] + rest.1)
  }

  /** SubscribeGet listens on "operation.get" and answers on topics under "/topic/result.get.". */
  lemma SubscribeGetTopics(ws: DeviceSession, subscriber: RequestSubscriber, session: StompSession,
                           payload: Request, getAttributeValue: DeviceGet, codec: Codec)
    requires payload.body.GetBody?
    ensures var h := AfterConnected(SubscribeGet(ws, subscriber), session);
            && Topic(h.kind) == "operation.get"
            && Accepts(h.kind, payload)
            && StartsWith(HandleFrame(h, payload, getAttributeValue, codec).1.topic, "/topic/result.get.")
  {
    var h := AfterConnected(SubscribeGet(ws, subscriber), session);
    var topic := HandleFrame(h, payload, getAttributeValue, codec).1.topic;
    assert topic == "/topic/result.get." + (ws.device.id + "." + payload.requestId);
  }
}

=== FILE: publish_handler.dfy ===
/**
 * PublishHandler: one pending call on the caller side. It is a Future<Response>
 * built on a one-shot CountDownLatch: a frame on the result topic stores the
 * response and counts the latch down; cancel counts it down without a response.
 */
module Publishing {
  import opened Wrappers
  import opened Envelopes

  /** A CountDownLatch created with count 1. */
  type Count = n: nat | n <= 1

  function CountDown(n: Count): (m: Count)
    ensures m == 0
    ensures n == 0 ==> m == n
  {
    if n == 0 then 0 else n - 1
  }

  /**
   * The handler's state: `topic` and `body` are what the concrete request class
   * (RequestGet, RequestSet, RequestAction) contributes; `body` is what its
   * getRequest stamps with the fresh requestId.
   */
  datatype PublishHandler = PublishHandler(
    deviceId: string,
    topic: string,
    body: Body,
    result: Option<Response>,
    cancelled: bool,
    latch: Count)

  /**
   * The invariant every reachable handler keeps: its latch is at zero exactly
   * when a frame arrived or it was cancelled.
   */
  predicate Valid(h: PublishHandler) {
    h.latch == 0 <==> h.result.Some? || h.cancelled
  }

  /** isDone: the latch has reached zero, which happens only through a frame or a cancel. */
  function IsDone(h: PublishHandler): (done: bool)
    ensures Valid(h) ==> (done <==> h.result.Some? || h.cancelled)
    ensures Valid(h) && !done ==> h.result.None?
  {
    h.latch == 0
  }

  /** isCancelled: the flag cancel sets; a cancelled handler is always done. */
  function IsCancelled(h: PublishHandler): (cancelled: bool)
    ensures Valid(h) && cancelled ==> IsDone(h)
    ensures cancelled <==> h.cancelled
  {
    h.cancelled
  }

  /** The constructor: nothing received, not cancelled, latch at 1. */
  function New(deviceId: string, topic: string, body: Body): (h: PublishHandler)
    ensures Valid(h)
    ensures !IsDone(h) && !IsCancelled(h) && h.result == None
    ensures h.deviceId == deviceId && h.topic == topic && h.body == body
  {
    PublishHandler(deviceId, topic, body, None, false, 1)
  }

  function OperationTopic(h: PublishHandler): string {
    "/topic/operation." + h.topic + "." + h.deviceId
  }

  /** Everything of the result topic up to the requestId. */
  function ResultPrefix(h: PublishHandler): string {
    "/topic/result." + h.topic + "." + h.deviceId + "."
  }

  function ResultTopic(h: PublishHandler, requestId: string): string {
    ResultPrefix(h) + requestId
  }

  /**
   * afterConnected with the requestId the UUID generator produced: subscribe to
   * the private result topic first, then send the request stamped with that same
   * id to the operation topic. The handler itself does not change.
   */
  function AfterConnected(h: PublishHandler, requestId: string): (effects: seq<Effect>)
    ensures |effects| == 2
    ensures effects[0].Subscribe? && effects[1].Send?
    ensures effects[0].topic == "/topic/result." + h.topic + "." + h.deviceId + "." + requestId
    ensures effects[1].topic == "/topic/operation." + h.topic + "." + h.deviceId
    ensures effects[1].request == Request(requestId, h.body)
    ensures effects[0].topic[|ResultPrefix(h)|..] == effects[1].request.requestId
  {
    [Subscribe(ResultTopic(h, requestId)), Send(OperationTopic(h), Request(requestId, h.body))]
  }

  /** handleFrame: store the response (overwriting any earlier one) and count down. */
  function HandleFrame(h: PublishHandler, response: Response): (h': PublishHandler)
    ensures IsDone(h') && h'.result == Some(response)
    ensures h'.cancelled == h.cancelled
    ensures h'.deviceId == h.deviceId && h'.topic == h.topic && h'.body == h.body
    ensures Valid(h')
  {
    h.(result := Some(response), latch := CountDown(h.latch))
  }

  /**
   * The frames the handler has handled by the time get reads the result, in
   * arrival order. The last of them wins: every frame overwrites the result. A
   * frame that arrives after that read is not among them.
   */
  function DeliverAll(h: PublishHandler, frames: seq<Response>): (h': PublishHandler)
    requires Valid(h)
    ensures Valid(h')
    ensures |frames| == 0 ==> h' == h
    ensures |frames| > 0 ==> IsDone(h') && h'.result == Some(frames[|frames| - 1])
    ensures h'.cancelled == h.cancelled
    ensures h'.deviceId == h.deviceId && h'.topic == h.topic && h'.body == h.body
    decreases |frames|
  {
    if |frames| == 0 then h
    else DeliverAll(HandleFrame(h, frames[0]), frames[1..])
  }

  /**
   * cancel as written: a done handler is left alone and false is returned; a
   * pending one is counted down and marked cancelled, and `!isDone()` is
   * returned, which after the count-down is false as well.
   */
  function Cancel(h: PublishHandler): (out: (PublishHandler, bool))
    requires Valid(h)
    ensures IsDone(h) ==> out.0 == h
    ensures !IsDone(h) ==> IsCancelled(out.0) && out.0.result == h.result
    ensures out.0.deviceId == h.deviceId && out.0.topic == h.topic && out.0.body == h.body
    ensures IsDone(out.0) && Valid(out.0)
    ensures !out.1
  {
    if IsDone(h) then (h, false)
    else
      var h1 := h.(latch := CountDown(h.latch), cancelled := true);
      (h1, !IsDone(h1))
  }

  /** cancel as Future promises it: true exactly when it stopped a pending call. */
  function CancelIntended(h: PublishHandler): (out: (PublishHandler, bool))
    requires Valid(h)
    ensures out.0 == Cancel(h).0
    ensures out.1 <==> !IsDone(h)
  {
    if IsDone(h) then (h, false)
    else (h.(latch := CountDown(h.latch), cancelled := true), true)
  }

  /** Cancelling a pending handler reports failure although it did cancel it. */
  lemma CancelReportsFalseOnSuccess(h: PublishHandler)
    requires Valid(h) && !IsDone(h)
    ensures IsCancelled(Cancel(h).0) && !Cancel(h).1
    ensures CancelIntended(h).1
  {
  }

  /**
   * get(timeout, unit) once the wait is over: the stored result if the latch
   * reached zero, otherwise a TimeoutException("timeout").
   */
  function Get(h: PublishHandler): (r: Result<Option<Response>, string>)
    requires Valid(h)
    ensures r.Success? <==> h.result.Some? || h.cancelled
    ensures r.Success? ==> r.value == h.result
    ensures r.Failure? ==> r.error == "timeout"
  {
    if IsDone(h) then Success(h.result) else Failure("timeout")
  }

  /** get returns null only for a handler that was cancelled before any reply. */
  lemma GetNullOnlyAfterCancel(h: PublishHandler)
    requires Valid(h)
    ensures Get(h) == Success(None) <==> h.cancelled && h.result.None?
  {
  }

  /** A reply arriving after a cancel is still stored and returned; the flag stays set. */
  lemma LateReplyAfterCancel(h: PublishHandler, response: Response)
    requires Valid(h) && !IsDone(h)
    ensures var h' := HandleFrame(Cancel(h).0, response);
            IsCancelled(h') && Get(h') == Success(Some(response))
  {
  }
}

=== FILE: subscribers.dfy ===
/**
 * The device-side subscribers: RequestSubscriber keeps the last inbound request
 * together with the device and session it answers for; GetSubscriber turns a
 * get request into a Response by asking the device's own getAttributeValue.
 * GetSubscriber's own base class, OperationSubscriber, is taken to be
 * RequestSubscriber: the same request field, device accessors and onEvent.
 */
module Subscribers {
  import opened Wrappers
  import opened Devices
  import opened Envelopes

  datatype RequestSubscriber = RequestSubscriber(
    request: Option<Request>,
    session: Option<DeviceSession>,
    device: Option<Device>)

  /** The no-argument constructor: every field null. */
  function NewRequestSubscriber(): (s: RequestSubscriber)
    ensures s.request.None? && GetSessionManager(s).None? && GetDevice(s).None?
  {
    RequestSubscriber(None, None, None)
  }

  /** getDevice: the device field, which neither onEvent nor the session setter touches. */
  function GetDevice(s: RequestSubscriber): (device: Option<Device>)
    ensures device == s.device
  {
    s.device
  }

  /** getSessionManager: the session last given to setWebsocketDeviceSession. */
  function GetSessionManager(s: RequestSubscriber): (session: Option<DeviceSession>)
    ensures session == s.session
  {
    s.session
  }

  /** getWebsocketDeviceSession: the same session getSessionManager reports. */
  function GetWebsocketDeviceSession(s: RequestSubscriber): (session: Option<DeviceSession>)
    ensures session == GetSessionManager(s)
  {
    s.session
  }

  function SetDevice(s: RequestSubscriber, device: Device): (s': RequestSubscriber)
    ensures GetDevice(s') == Some(device)
    ensures s'.request == s.request && GetSessionManager(s') == GetSessionManager(s)
  {
    s.(device := Some(device))
  }

  function SetWebsocketDeviceSession(s: RequestSubscriber, session: DeviceSession): (s': RequestSubscriber)
    ensures GetSessionManager(s') == Some(session)
    ensures s'.request == s.request && GetDevice(s') == GetDevice(s)
  {
    s.(session := Some(session))
  }

  /** onEvent: the event becomes the current request, replacing any earlier one. */
  function OnEvent(s: RequestSubscriber, event: Request): (s': RequestSubscriber)
    ensures s'.request == Some(event)
    ensures GetDevice(s') == GetDevice(s) && GetSessionManager(s') == GetSessionManager(s)
  {
    s.(request := Some(event))
  }

  /** Only the latest event is kept. */
  lemma OnEventLastWins(s: RequestSubscriber, first: Request, second: Request)
    ensures OnEvent(OnEvent(s, first), second) == OnEvent(s, second)
  {
  }

  /** The device's getAttributeValue: it returns a raw value or throws. */
  type DeviceGet = string -> Result<Value, Msg>

  /** A subscriber that can answer: it knows its device and holds a get request. */
  predicate CanAnswerGet(s: RequestSubscriber) {
    s.device.Some? && s.request.Some? && s.request.value.body.GetBody?
  }

  /**
   * GetSubscriber.getResponse: ask the device for the requested attribute, then
   * encode the value with the attribute type the device type defines for that
   * name. Every failure, including a missing definition, becomes a response
   * with success=false and the exception's message; nothing escapes.
   */
  function GetResponse(s: RequestSubscriber, getAttributeValue: DeviceGet, codec: Codec): (r: Response)
    requires CanAnswerGet(s)
    ensures r.success ==> r.error.None? && r.value.Some?
    ensures !r.success ==> r.value.None?
    ensures var attribute := s.request.value.body.attribute;
            var defs := s.device.value.deviceType.attDefinition;
            && (r.success <==>
                  && getAttributeValue(attribute).Success?
                  && attribute in defs
                  && codec.attributeData(defs[attribute], getAttributeValue(attribute).value).Success?)
            && (r.success ==>
                  r.value == Some(codec.attributeData(defs[attribute], getAttributeValue(attribute).value).value))
            && (getAttributeValue(attribute).Failure? ==> r.error == getAttributeValue(attribute).error)
            && (getAttributeValue(attribute).Success? && attribute !in defs ==> r.error == NullPointerMessage)
            && (getAttributeValue(attribute).Success? && attribute in defs
                && codec.attributeData(defs[attribute], getAttributeValue(attribute).value).Failure? ==>
                  r.error == codec.attributeData(defs[attribute], getAttributeValue(attribute).value).error)
  {
    var attribute := s.request.value.body.attribute;
    var defs := s.device.value.deviceType.attDefinition;
    match getAttributeValue(attribute)
    case Failure(m) => Response(false, m, None)
    case Success(raw) =>
      if attribute !in defs then Response(false, NullPointerMessage, None)
      else
        match codec.attributeData(defs[attribute], raw)
        case Failure(m) => Response(false, m, None)
        case Success(encoded) => Response(true, None, Some(encoded))
  }

  /** The device handler is consulted for the requested attribute and nothing else. */
  lemma GetResponseAsksOnlyForRequestedAttribute(s: RequestSubscriber, f: DeviceGet, g: DeviceGet, codec: Codec)
    requires CanAnswerGet(s)
    requires f(s.request.value.body.attribute) == g(s.request.value.body.attribute)
    ensures GetResponse(s, f, codec) == GetResponse(s, g, codec)
  {
  }
}

=== FILE: wrappers.dfy ===
/** Option and Result stand in for Java's nullable references and thrown exceptions. */
module Wrappers {

  /** A reference that may be null. */
  datatype Option<+T> = None | Some(value: T)

  /** A computation that either returns a value or throws. */
  datatype Result<+T, +E> = Success(value: T) | Failure(error: E)
}
